=== FILE: README.md ===
# Appointment-booking webhook, modelled in Dafny

The system is a small webhook service. A chat gateway posts each inbound
message, with the sender's phone number, to `/signal`. The handler keeps one
session per phone in a global dictionary and walks the sender through three
stages:

- ASK_NAME: the stripped message becomes the name.
- ASK_EMAIL: the message becomes the email. The handler asks the scheduling
  API for up to three free slots over the next seven days and shows them as a
  numbered menu.
- ASK_SLOT: the reply picks a slot. The handler requests the booking and, on
  success, sends a confirmation and forgets the session.

Every reply is an envelope `{action, message, status, meta}`.

The model has six modules:

- `Base` (`base.dfy`): `Option` and `Min`.
- `Text` (`text.dfy`): Python's `str.strip()`, with Python's full white-space
  set.
- `Slots` (`slots.dfy`): the slot collector `get_available_slots_from_cal`.
  - `SweepFrom`/`Collect` give a functional model of its two nested loops.
  - A reference description, independent of the loops, says what the
    collector must return: the first three start strings offered over the
    window, labelled.
  - `CollectSlots`/`VisitDay`/`TakeDaySlots` give the loop-by-loop version,
    proved equal to the functional model.
- `Booking` (`booking.dfy`): how `create_booking` classifies the HTTP status,
  and how the handler reads the confirmation, with its fallbacks.
- `Dialogue` (`dialogue.dfy`): one call of `signal_handler` as a function
  `Step` from the store and the message to the new store, the answer, and the
  booking requested.
- `Conversation` (`conversation.dfy`): whole runs of requests from the empty
  store. It proves an invariant on the sessions the handler writes, the
  allowed stage moves, that the catch-all reply cannot be reached, and a
  concrete booking dialogue.

The outside world becomes parameters:

- The current date is `today`, a day number.
- The slot API's answer for a date is `fetch(date)`.
- The UTC-to-local formatting of a start string is `labelOf`, or
  `formatTime` for the confirmation. `None` means the string cannot be
  parsed, which raises in the source. A slot entry with no "start" key is
  written as a start string that `labelOf` rejects: both raise exactly when
  the loop reaches that entry, and not if three slots are held before it.
- The booking API's answer is `booked`. It is `PostRaised` when the POST
  raises, or when a 200 or 201 answer's body is not JSON.
- The collector's result during an ASK_EMAIL request is `offered`.

Exceptions are modelled explicitly:

- Inside the collector, anything that raises makes the whole result empty.
- Inside the handler, an escaping exception is the answer `ServerError`. In
  that case the store is unchanged, because every raising point comes before
  any write.

## Model

| member | source | states |
|---|---|---|
| Text.Strip | main.py:156 | The stripped message has no white space at either end. It is what remains of the message once a white-space prefix (the longest one) and a white-space suffix are removed. |
| Text.StripCharacterised | main.py:156 | For any text with no white space at its ends, surrounded by any white space, stripping gives back exactly that text. |
| Text.StripIdempotent | main.py:156 | Stripping an already stripped message changes nothing. |
| Slots.SlotMap | main.py:108-112 | The keys of the slot dictionary are exactly "1".."n" for n collected slots. Key "i" maps to the i-th collected slot. |
| Slots.TakeDay | main.py:96-112 | Taking one day's list keeps what was already held as a prefix. It appends the day's start strings in API order, unchanged and labelled, until three are held. It fails exactly when one of the strings it reaches cannot be labelled. |
| Slots.SweepFrom | main.py:63-67 | The dates queried are consecutive, starting from the current offset, and never go past offset 6. The slots already held are kept as a prefix. |
| Slots.SweepFromMeetsReference | main.py:63-112 | From any day, holding the first slots offered before it, the sweep returns the first three offered overall. It queries a day only while fewer than three are held. It fails exactly when a queried day raised or one of the first three cannot be labelled. |
| Slots.CollectMeetsReference | main.py:53-115 | Dates queried: today, today+1, … (at most seven), each only while fewer than three slots are held. On success the sweep stops early only with three held; on an exception it stops at the day that raised. A queried day breaks the sweep (it raised, or one of its first slots cannot be labelled) exactly when it is the last one queried and the sweep failed, so no queried day before the last raised. Result: the first three start strings offered over the window (a day with status other than 200 offers none), unchanged, labelled, in day-then-API order. It fails exactly when a queried day raised or one of those three cannot be labelled. |
| Slots.SweepFromStopsAtFailure | main.py:62-119 | From any day, holding the first slots offered before it, a failing sweep has queried at least one day, and a queried day breaks the sweep exactly when it is the last one queried and the sweep failed. |
| Slots.CollectStopsAtFailure | main.py:62-119 | From today, a queried day breaks the sweep exactly when it is the last one queried and the sweep failed; no queried day before the last one raised. |
| Slots.GetAvailableSlots | main.py:50-119 | The result is empty, or it is the first three offered slots, labelled. It is empty exactly when a queried day raised, a label failed, or nothing was offered in seven days. Partial results are discarded on an exception. |
| Slots.SweepReadsOnlyWindow | main.py:63-68 | Two slot APIs that agree on today and the six days after it give the same sweep: no other date is consulted. |
| Slots.TakeDaySlots | main.py:96-112 | The inner loop, run slot by slot, computes exactly what `TakeDay` describes. |
| Slots.VisitDay | main.py:87-112 | One pass of the outer loop's body fails exactly when the reply raised or one of the start strings it reaches cannot be labelled. Otherwise it keeps the slots held and appends the day's first start strings, labelled, until three are held. A status other than 200 or an empty day appends nothing. |
| Slots.CollectSlots | main.py:62-119 | The outer loop, run day by day, returns the sweep's slots, or nothing when anything raised. |
| Booking.CreateBooking | main.py:137-150 | The call raises exactly when the POST (or decoding a 200/201 body) raises. A body is returned exactly on status 200 or 201, and it is the reply's body unchanged. Any other status gives no booking. |
| Booking.MeetingLink | main.py:212 | The link is never empty. It is a non-empty meeting URL if there is one; otherwise a non-empty location if there is one; otherwise "Will be shared shortly". |
| Booking.HostName | main.py:226 | The host name fails (IndexError) exactly when `hosts` is an empty list. When the first host has a name, that name is used. Otherwise the name is "Host". |
| Booking.Confirm | main.py:211-226 | Reading the confirmation fails exactly when the host list is empty or a non-empty start time cannot be parsed. On success: the link is `MeetingLink`; the duration is the stated one, or 30; the time is the formatted start, or "N/A" when the start is absent or empty; the host is `HostName`. |
| Booking.ConfirmDefaults | main.py:211-226 | A booking body with no "data" gets host "Host", time "N/A", 30 minutes and "Will be shared shortly". |
| Booking.EmptyStringsFallBack | main.py:212-217 | An empty meeting URL falls through to the location or the default, and an empty start reads "N/A", as Python's truth tests do. |
| Dialogue.Response | main.py:39-47 | The envelope carries the given action, message and status. Its meta is the given map, or the empty map when none is given. |
| Dialogue.Menu | main.py:187-191 | The menu has one line per slot, in key order "1", "2", "3". Line i carries key i and the i-th slot's label. Every slot key appears on some line. |
| Dialogue.Step | main.py:153-251 | A request leaves the store alone, removes its own phone's session, or rewrites only that session. Every sent reply has action SEND_MESSAGE and empty meta. A request that raises leaves the store unchanged. |
| Dialogue.StepTouchesOnlyItsPhone | main.py:158-228 | No other phone's session is added, removed or changed. |
| Dialogue.NewPhoneGivesName | main.py:155-170 | A phone with no session starts in ASK_NAME. Its stripped message becomes the name, the session is stored in ASK_EMAIL, and the reply asks for the email. |
| Dialogue.EmailWithoutSlots | main.py:173-181 | In ASK_EMAIL with no slots found, the stripped email is still recorded in the stored session. Stage, name and slots stay as they were, the reply says no slots are available, and no booking is requested. |
| Dialogue.EmailWithSlots | main.py:173-192 | In ASK_EMAIL with slots found, the email and the slots are stored and the stage becomes ASK_SLOT. The reply is the menu of the offered slots in their order; it shows exactly the slot keys, each with its label. No booking is requested. |
| Dialogue.UnknownChoiceChangesNothing | main.py:195-200 | In ASK_SLOT, a reply that is not a slot key changes nothing, requests no booking and gets "invalid choice". Sending it again gives the same outcome. |
| Dialogue.FailedBookingChangesNothing | main.py:202-209 | In ASK_SLOT, a valid key requests the booking of that slot's start for the stored name and email. When the API returns no booking, or a body that is false in Python's sense, the store is unchanged and the reply is PENDING. |
| Dialogue.BookingCallRaises | main.py:137-150 | In ASK_SLOT, with a valid key, when the booking call raises, the booking has been requested, the exception escapes, and the store is unchanged. |
| Dialogue.UnreadableConfirmationRaises | main.py:202-228 | In ASK_SLOT, with a valid key, when the API accepts the booking but its confirmation cannot be read (an empty host list or a start time that cannot be parsed), the booking of the chosen slot's start for the stored name and email has been requested, the exception escapes before the session is removed, and the store is unchanged. Sending the same message again gives the same outcome, with the same request. |
| Dialogue.BookedExactlyOnSuccess | main.py:202-246 | The reply is BOOKED exactly when the session is in ASK_SLOT, the key is valid, the API accepts the booking, and the confirmation can be read. Then the phone's session alone is removed and the confirmation is sent. Every other reply is PENDING, and a session is removed only on BOOKED. |
| Dialogue.BookingRequestedExactly | main.py:195-203 | A booking is requested exactly when the session is in ASK_SLOT and the stripped reply is an offered key, whatever the booking API answers. The request carries the stored name and email and the chosen slot's start string. |
| Conversation.StepKeepsWellFormed | main.py:158-192 | If every stored session is in ASK_EMAIL with a name, or in ASK_SLOT with name, email and a non-empty slot list, every request keeps it so. |
| Conversation.StepFollowsEdges | main.py:166-251 | On such a store, the stage moves only ASK_NAME→ASK_EMAIL, ASK_EMAIL→ASK_EMAIL/ASK_SLOT, or ASK_SLOT→ASK_SLOT/removed. The catch-all reply is never sent. An exception escapes only after a booking was requested: either the booking call raised, or the API accepted the booking and its confirmation could not be read. |
| Conversation.RunKeepsWellFormed | main.py:31 | Any sequence of requests keeps every stored session well formed. |
| Conversation.FallbackUnreachable | main.py:248-251 | Starting from the empty store, after any sequence of requests, the next request follows the allowed stage moves and never gets "Something went wrong. Please start again." |
| Conversation.NameStep | main.py:156-170 | A padded name " Jane Doe " from a new phone is stored as "Jane Doe" in ASK_EMAIL. |
| Conversation.EmailStep | main.py:173-192 | The email with two slots on offer stores both and moves to ASK_SLOT. |
| Conversation.BadChoiceStep | main.py:195-200 | With two slots, "5" is refused and nothing changes. |
| Conversation.BookedStep | main.py:202-246 | With two slots, "2" books the second slot's start. An accepted booking with no data is confirmed with every default, and the store ends empty. |

## Left out

- HTTP and the web framework: request parsing, serialisation, and the
  framework's 500 page. An escaping exception is only the answer
  `ServerError`.
- The query parameters and headers sent to the scheduling API, and the API
  key and event-type configuration. These are inputs to calls the model
  replaces by `fetch` and `booked`.
- Time and time-zone arithmetic. `datetime.now()` is the parameter `today`.
  Parsing, UTC-to-IST conversion and `strftime` are the parameters `labelOf`
  and `formatTime`, because they belong to libraries outside this code.
- The exact wording and emoji of the reply texts. A `Message` variant names
  each text, and its data (menu lines, confirmation fields) is kept.
- Logging (`print`). It has no effect on state or replies.
- Concurrency on the global dictionary. Each request is one atomic `Step`.
- JSON shapes other than the ones the handler expects, for example a `data`
  that is not an object, `null` data or duration, or a non-integer duration.
  In the collector every decoding failure counts as a day that raised.
- Slots.CollectSlots: proves only the returned slots equal the functional
  model's. The list of queried dates is tracked in the functional model
  (`Collect`), not in the loop.
- After an accepted booking whose confirmation cannot be read (an empty host
  list or an unparsable start), the session stays in ASK_SLOT. The model has
  this behaviour (`UnreadableConfirmationRaises`, `StepFollowsEdges`), so a
  retry requests a second booking with the same name, email and start. It is
  recorded here as behaviour, not as a defect.

=== FILE: base.dfy ===
/** Small shared vocabulary: optional values and integer minimum. */
module Base {

  /** A value that may be absent: Python's `None` versus a present value. */
  datatype Option<+T> = None | Some(value: T) {

    /** The wrapped value, or `default` when absent, as a dictionary lookup with a default gives. */
    function GetOr(default: T): (v: T) {
      match this
      case Some(v) => v
      case None => default
    }
  }

  /** The smaller of `a` and `b`. */
  function Min(a: int, b: int): (m: int) {
    if a <= b then a else b
  }
}

=== FILE: booking.dfy ===
/** The booking call's outcome as the handler sees it: the status
    classification of `create_booking` (main.py:147-150) and the reading of
    the confirmation, with its fallbacks (main.py:211-226). */
module Booking {
  import opened Base

  /** Shown when the booking names neither a meeting URL nor a location (main.py:212). */
  const DefaultLink: string := "Will be shared shortly"
  /** The duration assumed when the booking does not state one (main.py:225). */
  const DefaultDuration: int := 30
  /** The host name assumed when the booking does not give one (main.py:226). */
  const DefaultHost: string := "Host"
  /** Shown when the booking has no start time (main.py:215). */
  const NoTime: string := "N/A"

  /** One entry of the booking's `hosts` list; `name` is absent when the entry has no "name" key. */
  datatype Host = Host(name: Option<string>)

  /** The booking's `data` object; each field is `None` when its key is absent. */
  datatype BookingData = BookingData(
    meetingUrl: Option<string>,
    location: Option<string>,
    start: Option<string>,
    duration: Option<int>,
    hosts: Option<seq<Host>>)

  /** `{}`: what the handler reads when the body has no "data" key (main.py:211). */
  const EmptyData := BookingData(None, None, None, None, None)

  /** The decoded JSON body of the booking response. `Falsy` is a body that
      Python treats as false (`{}` or `null`); `Object` is a non-empty object,
      whose `data` is absent when it has no "data" key. */
  datatype Body = Falsy | Object(data: Option<BookingData>)

  /** The booking API's HTTP answer. `PostRaised` stands for a POST that
      raised (no connection, a timeout) and for a 200 or 201 answer whose body
      is not JSON, whose decoding raises (main.py:137-150). */
  datatype HttpReply =
    | PostRaised
    | HttpReply(status: int, body: Body)

  /** What `create_booking` hands back to the handler: it raises, it gives
      no booking, or it gives the decoded body. */
  datatype BookingCall = CallRaised | NotBooked | Returned(body: Body)

  /** `create_booking` (main.py:137-150): the body on status 200 or 201,
      no booking on any other status, and the exception passed on. */
  function CreateBooking(reply: HttpReply): (r: BookingCall)
    ensures r.CallRaised? <==> reply.PostRaised?
    ensures r.Returned? <==> reply.HttpReply? && (reply.status == 200 || reply.status == 201)
    ensures r.Returned? ==> r.body == reply.body
  {
    match reply
    case PostRaised => CallRaised
    case HttpReply(status, body) =>
      if status != 200 && status != 201 then NotBooked else Returned(body)
  }

  /** The handler goes on to read a confirmation (main.py:205): the call
      returned a body that is true in Python's sense. */
  predicate Accepted(reply: HttpReply) {
    CreateBooking(reply).Returned? && CreateBooking(reply).body.Object?
  }

  /** The call returned, but with no booking or a body that is false in
      Python's sense: the handler reports a failed booking (main.py:205-209). */
  predicate Rejected(reply: HttpReply) {
    !CreateBooking(reply).CallRaised? && !Accepted(reply)
  }

  /** Python's truth value of an optional string: present and non-empty. */
  predicate Truthy(s: Option<string>) {
    s.Some? && s.value != ""
  }

  /** The meeting link shown (main.py:212): the first of the meeting URL,
      the location and the default text that is present and non-empty. */
  function MeetingLink(data: BookingData): (link: string)
    ensures link != ""
    ensures link == DefaultLink || Some(link) == data.meetingUrl || Some(link) == data.location
    ensures Truthy(data.meetingUrl) ==> link == data.meetingUrl.value
    ensures !Truthy(data.meetingUrl) && Truthy(data.location) ==> link == data.location.value
    ensures !Truthy(data.meetingUrl) && !Truthy(data.location) ==> link == DefaultLink
  {
    if Truthy(data.meetingUrl) then data.meetingUrl.value
    else if Truthy(data.location) then data.location.value
    else DefaultLink
  }

  /** The host name shown (main.py:226): the first host's name, or "Host"
      when there is no host list or the first host has no name; `None` when
      the host list is empty, where indexing its first entry raises. */
  function HostName(data: BookingData): (r: Option<string>)
    ensures r.None? <==> data.hosts == Some([])
    ensures r.Some? && r.value != DefaultHost ==>
              data.hosts.Some? && data.hosts.value[0].name == Some(r.value)
    ensures data.hosts.Some? && |data.hosts.value| > 0 && data.hosts.value[0].name.Some? ==>
              r == data.hosts.value[0].name
  {
    match data.hosts
    case None => Some(DefaultHost)
    case Some(hosts) =>
      if |hosts| == 0 then None else Some(hosts[0].name.GetOr(DefaultHost))
  }

  /** The displayed meeting time: `formatTime` stands for the timezone
      conversion and formatting of the start string (`None` when it cannot be
      parsed, which raises); "N/A" when the start is absent or empty. */
  function MeetingTime(data: BookingData, formatTime: string -> Option<string>): (r: Option<string>)
    ensures !Truthy(data.start) ==> r == Some(NoTime)
    ensures Truthy(data.start) ==> r == formatTime(data.start.value)
  {
    if Truthy(data.start) then formatTime(data.start.value) else Some(NoTime)
  }

  /** What the confirmation message reports about the booking. */
  datatype Confirmation = Confirmation(host: string, time: string, minutes: int, link: string)

  /** The confirmation read from a booking's data; `None` when reading it
      raises (an unparsable start time or an empty host list). */
  function Confirm(data: BookingData, formatTime: string -> Option<string>): (r: Option<Confirmation>)
    ensures r.None? <==> data.hosts == Some([]) || (Truthy(data.start) && formatTime(data.start.value).None?)
    ensures r.Some? ==> r.value.link == MeetingLink(data) && r.value.minutes == data.duration.GetOr(DefaultDuration)
    ensures r.Some? && !Truthy(data.start) ==> r.value.time == NoTime
    ensures r.Some? && Truthy(data.start) ==> formatTime(data.start.value) == Some(r.value.time)
    ensures r.Some? ==> HostName(data) == Some(r.value.host)
  {
    match MeetingTime(data, formatTime)
    case None => None
    case Some(time) =>
      match HostName(data)
      case None => None
      case Some(host) => Some(Confirmation(host, time, data.duration.GetOr(DefaultDuration), MeetingLink(data)))
  }

  /** A booking whose body carries no "data" gets every fallback. */
  lemma ConfirmDefaults(formatTime: string -> Option<string>)
    ensures Confirm(EmptyData, formatTime) == Some(Confirmation(DefaultHost, NoTime, DefaultDuration, DefaultLink))
  {
  }

  /** An empty meeting URL is skipped like a missing one, and an empty start
      time reads as "N/A": Python's `or` and `if` test truth, not presence. */
  lemma EmptyStringsFallBack(data: BookingData, formatTime: string -> Option<string>)
    requires data.meetingUrl == Some("") && data.start == Some("")
    ensures MeetingLink(data) == (if Truthy(data.location) then data.location.value else DefaultLink)
    ensures MeetingTime(data, formatTime) == Some(NoTime)
  {
  }
}

=== FILE: conversation.dfy ===
/** Whole conversations: what holds of every store the handler itself
    produces, request after request, starting from the empty `STATE`
    (main.py:31). */
module Conversation {
  import opened Base
  import opened Text
  import opened Slots
  import opened Booking
  import opened Dialogue

  /** A session as the handler stores it: waiting for the email once the
      name is known, or waiting for a choice once name, email and a
      non-empty slot list are known. */
  predicate Consistent(s: Session) {
    match s.stage
    case AskEmail => s.name.Some? && s.slots.None?
    case AskSlot => s.name.Some? && s.email.Some? && s.slots.Some? && |s.slots.value| > 0
    case AskName => false
    case Unrecognised(_) => false
  }

  /** Every stored session is one the handler could have written. */
  ghost predicate WellFormed(store: Store) {
    forall p :: p in store ==> Consistent(store[p])
  }

  /** The stage a phone is in after a request; `None` once its session is gone. */
  function StageIn(store: Store, phone: string): (stage: Option<Stage>) {
    if phone in store then Some(store[phone].stage) else None
  }

  /** The allowed moves: ASK_NAME to ASK_EMAIL; ASK_EMAIL stays or moves to
      ASK_SLOT; ASK_SLOT stays or ends with the session removed. */
  predicate Edge(before: Stage, after: Option<Stage>) {
    || (before == AskName && after == Some(AskEmail))
    || (before == AskEmail && (after == Some(AskEmail) || after == Some(AskSlot)))
    || (before == AskSlot && (after == Some(AskSlot) || after == None))
  }

  /** A request keeps every stored session consistent. */
  lemma StepKeepsWellFormed(store: Store, phone: string, message: string, offered: SlotList,
                            booked: HttpReply, formatTime: string -> Option<string>)
    requires WellFormed(store)
    ensures WellFormed(Step(store, phone, message, offered, booked, formatTime).store)
  {
    var r := Step(store, phone, message, offered, booked, formatTime);
    StepTouchesOnlyItsPhone(store, phone, message, offered, booked, formatTime);
    forall p | p in r.store
      ensures Consistent(r.store[p])
    {
      if p != phone {
        assert p in store && r.store[p] == store[p];
      }
    }
  }

  /** On a store the handler produced, the stage moves only along the
      allowed edges, the catch-all reply (main.py:248-251) is never given,
      and an exception escapes only once a booking has been requested: from
      the booking call itself, or in reading the confirmation of a booking
      the API has accepted. */
  lemma StepFollowsEdges(store: Store, phone: string, message: string, offered: SlotList,
                         booked: HttpReply, formatTime: string -> Option<string>)
    requires WellFormed(store)
    ensures var r := Step(store, phone, message, offered, booked, formatTime);
      && Edge(Load(store, phone).stage, StageIn(r.store, phone))
      && (r.answer.Sent? ==> r.answer.reply.message != StartAgain)
      && (r.answer.ServerError? ==> r.booking.Some? && (booked.PostRaised? || Accepted(booked)))
  {
    if phone in store {
      assert Consistent(store[phone]);
    }
  }

  /** One request to the handler, with what the collaborators answer during it. */
  datatype Request = Request(phone: string, message: string, offered: SlotList, booked: HttpReply)

  /** The store after handling `requests` in order. */
  function Run(store: Store, requests: seq<Request>, formatTime: string -> Option<string>): (last: Store)
    decreases |requests|
  {
    if |requests| == 0 then store
    else
      var q := requests[0];
      Run(Step(store, q.phone, q.message, q.offered, q.booked, formatTime).store, requests[1..], formatTime)
  }

  /** Every run keeps the store well formed. */
  lemma {:induction false} RunKeepsWellFormed(store: Store, requests: seq<Request>,
                                              formatTime: string -> Option<string>)
    requires WellFormed(store)
    ensures WellFormed(Run(store, requests, formatTime))
    decreases |requests|
  {
    if |requests| > 0 {
      var q := requests[0];
      StepKeepsWellFormed(store, q.phone, q.message, q.offered, q.booked, formatTime);
      RunKeepsWellFormed(Step(store, q.phone, q.message, q.offered, q.booked, formatTime).store,
                         requests[1..], formatTime);
    }
  }

  /** Starting from the empty store, whatever came before, the next request
      follows the allowed edges and never reaches the catch-all reply. */
  lemma FallbackUnreachable(requests: seq<Request>, next: Request, formatTime: string -> Option<string>)
    ensures var store := Run(map[], requests, formatTime);
            var r := Step(store, next.phone, next.message, next.offered, next.booked, formatTime);
      && Edge(Load(store, next.phone).stage, StageIn(r.store, next.phone))
      && (r.answer.Sent? ==> r.answer.reply.message != StartAgain)
  {
    RunKeepsWellFormed(map[], requests, formatTime);
    var store := Run(map[], requests, formatTime);
    StepFollowsEdges(store, next.phone, next.message, next.offered, next.booked, formatTime);
  }

  // A complete conversation: a name, an email answered with two slots, an
  // out-of-range choice, then a valid choice the API books.

  const First := Slot("2026-10-12T04:30:00Z", "12 Oct, 10:00 AM")
  const Second := Slot("2026-10-12T05:00:00Z", "12 Oct, 10:30 AM")
  const Named := Session(Some("Jane Doe"), None, None, AskEmail)
  const Choosing := Session(Some("Jane Doe"), Some("jane@x.com"), Some([First, Second]), AskSlot)
  const Refused := HttpReply(500, Falsy)
  const Created := HttpReply(201, Object(None))

  /** The padded name is stored stripped. */
  lemma NameStep(formatTime: string -> Option<string>)
    ensures var r := Step(map[], "p", " Jane Doe ", [], Refused, formatTime);
      r.store == map["p" := Named] && r.answer == Sent(Envelope(SendMessage, AskEmailPrompt, Pending, map[]))
  {
    StripCharacterised(" ", "Jane Doe", " ");
    assert " " + "Jane Doe" + " " == " Jane Doe ";
    NewPhoneGivesName(map[], "p", " Jane Doe ", [], Refused, formatTime);
  }

  /** The email with two slots on offer moves to ASK_SLOT. */
  lemma EmailStep(formatTime: string -> Option<string>)
    ensures Step(map["p" := Named], "p", "jane@x.com", [First, Second], Refused, formatTime).store
            == map["p" := Choosing]
  {
    StripCharacterised("", "jane@x.com", "");
    assert "" + "jane@x.com" + "" == "jane@x.com";
    EmailWithSlots(map["p" := Named], "p", "jane@x.com", [First, Second], Refused, formatTime);
  }

  /** "5" is not among the two keys: nothing changes. */
  lemma BadChoiceStep(formatTime: string -> Option<string>)
    ensures var r := Step(map["p" := Choosing], "p", "5", [], Refused, formatTime);
      r.store == map["p" := Choosing] && r.answer == Sent(Envelope(SendMessage, InvalidChoice, Pending, map[]))
  {
    StripCharacterised("", "5", "");
    assert "" + "5" + "" == "5";
    assert !IsKey("5", 2);
    UnknownChoiceChangesNothing(map["p" := Choosing], "p", "5", [], Refused, formatTime);
  }

  /** "2", stripped, is the key of the second of two slots. */
  lemma SecondKey()
    ensures Strip("2") == "2" && "2" in SlotMap([First, Second]) && SlotMap([First, Second])["2"] == Second
  {
    StripCharacterised("", "2", "");
    assert "" + "2" + "" == "2";
    assert "2" == Key(2);
  }

  /** "2" books the second slot with the defaults of an empty confirmation,
      and the session is removed. */
  lemma BookedStep(formatTime: string -> Option<string>)
    ensures var r := Step(map["p" := Choosing], "p", "2", [], Created, formatTime);
      && r.store == map[]
      && r.booking == Some(BookingRequest(Some("Jane Doe"), Some("jane@x.com"), Second.iso))
      && r.answer == Sent(Envelope(SendMessage, Confirmed(Some("Jane Doe"), Some("jane@x.com"),
                                   Confirmation(DefaultHost, NoTime, DefaultDuration, DefaultLink)), Booked, map[]))
  {
    var store: Store := map["p" := Choosing];
    SecondKey();
    ConfirmDefaults(formatTime);
    assert CreateBooking(Created) == Returned(Object(None));
    BookedExactlyOnSuccess(store, "p", "2", [], Created, formatTime);
    assert store - {"p"} == map[];
  }
}

=== FILE: dialogue.dfy ===
/** The webhook handler `signal_handler` (main.py:153-251): one inbound
    message advances that phone's session through ASK_NAME, ASK_EMAIL and
    ASK_SLOT, ending in a booking, and produces the reply envelope. */
module Dialogue {
  import opened Base
  import opened Text
  import opened Slots
  import opened Booking

  /** The only action the handler ever replies with (main.py:170-250). */
  const SendMessage: string := "SEND_MESSAGE"

  /** A session's stage. The source keeps it as a string; `Unrecognised`
      stands for any string other than the three it writes. */
  datatype Stage = AskName | AskEmail | AskSlot | Unrecognised(tag: string)

  /** The per-phone session dictionary (main.py:158-163). */
  datatype Session = Session(name: Option<string>, email: Option<string>, slots: Option<SlotList>, stage: Stage)

  /** The global `STATE`: sessions by phone number. */
  type Store = map<string, Session>

  /** The session assumed for a phone with no stored session. */
  const FreshSession := Session(None, None, None, AskName)

  datatype Status = Pending | Booked

  /** One "k. label" line of the slot menu (main.py:188-189). */
  datatype MenuLine = MenuLine(key: string, caption: string)

  /** The reply texts, by what they say. */
  datatype Message =
    | AskEmailPrompt                   // asks for the email (main.py:170)
    | NoSlotsNow                       // no slots, try later (main.py:180)
    | SlotMenu(lines: seq<MenuLine>)   // the slot list and "Reply with 1, 2, or 3" (main.py:187-191)
    | InvalidChoice                    // main.py:199
    | BookingFailed                    // main.py:208
    | Confirmed(attendee: Option<string>, email: Option<string>, details: Confirmation)  // main.py:232-244
    | StartAgain                       // the catch-all (main.py:250)

  /** The reply envelope (main.py:42-47). */
  datatype Envelope = Envelope(action: string, message: Message, status: Status, meta: map<string, string>)

  /** The reply builder (main.py:39-47): the meta is the given map when
      there is one, and the empty map otherwise. */
  function Response(action: string, message: Message, status: Status, meta: Option<map<string, string>>): (r: Envelope)
    ensures r.action == action && r.message == message && r.status == status
    ensures meta.None? ==> r.meta == map[]
    ensures meta.Some? ==> r.meta == meta.value
  {
    Envelope(action, message, status, meta.GetOr(map[]))
  }

  /** What the handler sends in every turn: a SEND_MESSAGE reply with the
      given status and no meta. */
  function Send(message: Message, status: Status): (r: Envelope)
    ensures r.action == SendMessage && r.meta == map[]
  {
    Response(SendMessage, message, status, None)
  }

  /** The menu lines for `slots`, in the dictionary's order (main.py:188-189). */
  function Menu(slots: SlotList): (lines: seq<MenuLine>)
    ensures |lines| == |slots|
    ensures forall i :: 0 <= i < |lines| ==> lines[i].key == Key(i + 1)
    ensures forall i :: 0 <= i < |lines| ==>
              lines[i].key in SlotMap(slots) && lines[i].caption == SlotMap(slots)[lines[i].key].display
    ensures forall k :: k in SlotMap(slots) ==> exists i :: 0 <= i < |lines| && lines[i].key == k
  {
    var lines := seq(|slots|, i requires 0 <= i < |slots| => MenuLine(Key(i + 1), slots[i].display));
    var m := SlotMap(slots);
    forall k | k in m
      ensures exists i :: 0 <= i < |lines| && lines[i].key == k
    {
      var n := (k[0] as int) - ('0' as int);
      assert k == Key(n);
      assert lines[n - 1].key == k;
    }
    lines
  }

  /** The booking the handler requests: attendee name, email and the chosen slot's start. */
  datatype BookingRequest = BookingRequest(name: Option<string>, email: Option<string>, start: string)

  /** How the request ended: a reply, or an exception escaping the handler
      (the framework then answers with a server error). */
  datatype Answer = Sent(reply: Envelope) | ServerError

  /** The store after the request, its answer, and the booking requested, if any. */
  datatype Outcome = Outcome(store: Store, answer: Answer, booking: Option<BookingRequest>)

  /** `s` and `t` hold the same sessions for every phone other than `phone`. */
  ghost predicate SameExcept(s: Store, t: Store, phone: string) {
    forall p :: p != phone ==> (p in s <==> p in t) && (p in s ==> s[p] == t[p])
  }

  /** The session the handler works on (main.py:158-163). */
  function Load(store: Store, phone: string): (session: Session) {
    if phone in store then store[phone] else FreshSession
  }

  /** One call of `signal_handler`. `offered` is what the slot collector
      returns during this call (consulted only in ASK_EMAIL); `booked` is the
      booking API's answer (consulted only when a booking is requested);
      `formatTime` is the display formatting of the confirmed start time. */
  function Step(store: Store, phone: string, message: string, offered: SlotList, booked: HttpReply,
                formatTime: string -> Option<string>): (r: Outcome)
    ensures r.store == store || r.store == store - {phone} || (phone in r.store && r.store == store[phone := r.store[phone]])
    ensures r.answer.Sent? ==> r.answer.reply.action == SendMessage && r.answer.reply.meta == map[]
    ensures r.answer.ServerError? ==> r.store == store
  {
    var text := Strip(message);
    var state := Load(store, phone);
    match state.stage
    case AskName =>
      Outcome(store[phone := state.(name := Some(text), stage := AskEmail)], Sent(Send(AskEmailPrompt, Pending)), None)
    case AskEmail =>
      var withEmail := state.(email := Some(text));
      if |offered| == 0 then
        // `state` is the stored dictionary itself (a phone without one is
        // in ASK_NAME), so the email write persists without storing it again.
        Outcome(store[phone := withEmail], Sent(Send(NoSlotsNow, Pending)), None)
      else
        Outcome(store[phone := withEmail.(slots := Some(offered), stage := AskSlot)],
                Sent(Send(SlotMenu(Menu(offered)), Pending)), None)
    case AskSlot =>
      (match state.slots
      case None =>
        // A membership test against the missing slot map raises.
        Outcome(store, ServerError, None)
      case Some(slots) =>
        var choices := SlotMap(slots);
        if text !in choices then
          Outcome(store, Sent(Send(InvalidChoice, Pending)), None)
        else
          var request := BookingRequest(state.name, state.email, choices[text].iso);
          match CreateBooking(booked)
          case CallRaised => Outcome(store, ServerError, Some(request))
          case NotBooked => Outcome(store, Sent(Send(BookingFailed, Pending)), Some(request))
          case Returned(Falsy) => Outcome(store, Sent(Send(BookingFailed, Pending)), Some(request))
          case Returned(Object(data)) =>
            match Confirm(data.GetOr(EmptyData), formatTime)
            case None => Outcome(store, ServerError, Some(request))
            case Some(details) =>
              Outcome(store - {phone}, Sent(Send(Confirmed(state.name, state.email, details), Booked)), Some(request)))
    case Unrecognised(_) =>
      Outcome(store, Sent(Send(StartAgain, Pending)), None)
  }

  // ---------------------------------------------------------------------
  // Properties of one step.
  // ---------------------------------------------------------------------

  /** A request changes at most its own phone's session: every other
      session is kept as it was, and none is added or removed. */
  lemma StepTouchesOnlyItsPhone(store: Store, phone: string, message: string, offered: SlotList,
                                booked: HttpReply, formatTime: string -> Option<string>)
    ensures SameExcept(store, Step(store, phone, message, offered, booked, formatTime).store, phone)
  {
    var r := Step(store, phone, message, offered, booked, formatTime);
    forall p | p != phone
      ensures (p in store <==> p in r.store) && (p in store ==> store[p] == r.store[p])
    {
      if r.store == store - {phone} {
        assert p in store ==> p in store - {phone};
      }
    }
  }

  /** A phone with no session starts in ASK_NAME: its message, stripped,
      becomes the name and the session moves to ASK_EMAIL (main.py:158-170). */
  lemma NewPhoneGivesName(store: Store, phone: string, message: string, offered: SlotList,
                          booked: HttpReply, formatTime: string -> Option<string>)
    requires phone !in store
    ensures var r := Step(store, phone, message, offered, booked, formatTime);
      && phone in r.store
      && r.store[phone] == Session(Some(Strip(message)), None, None, AskEmail)
      && Trimmed(r.store[phone].name.value)
      && r.answer == Sent(Envelope(SendMessage, AskEmailPrompt, Pending, map[]))
      && r.booking.None?
  {
  }

  /** In ASK_EMAIL with no slots offered, only the email is recorded: the
      stage stays ASK_EMAIL and the slots stay unset (main.py:173-181). */
  lemma EmailWithoutSlots(store: Store, phone: string, message: string, offered: SlotList,
                          booked: HttpReply, formatTime: string -> Option<string>)
    requires phone in store && store[phone].stage == AskEmail
    requires |offered| == 0
    ensures var r := Step(store, phone, message, offered, booked, formatTime);
      && phone in r.store
      && r.store[phone].email == Some(Strip(message))
      && r.store[phone].stage == AskEmail
      && r.store[phone].slots == store[phone].slots
      && r.store[phone].name == store[phone].name
      && r.answer == Sent(Envelope(SendMessage, NoSlotsNow, Pending, map[]))
      && r.booking.None?
  {
  }

  /** In ASK_EMAIL with slots offered, the email and the slots are stored,
      the stage becomes ASK_SLOT, and the reply lists every choice key with
      its slot's label (main.py:173-192). */
  lemma EmailWithSlots(store: Store, phone: string, message: string, offered: SlotList,
                       booked: HttpReply, formatTime: string -> Option<string>)
    requires Load(store, phone).stage == AskEmail
    requires |offered| > 0
    ensures var r := Step(store, phone, message, offered, booked, formatTime);
      && phone in r.store
      && r.store[phone] == Load(store, phone).(email := Some(Strip(message)), slots := Some(offered), stage := AskSlot)
      && r.answer.Sent? && r.answer.reply.status == Pending
      && r.answer.reply.message == SlotMenu(Menu(offered))
      && r.booking.None?
      && (forall k :: k in SlotMap(offered) <==>
            exists i :: 0 <= i < |r.answer.reply.message.lines| && r.answer.reply.message.lines[i].key == k)
      && (forall line :: line in r.answer.reply.message.lines ==>
            line.key in SlotMap(offered) && line.caption == SlotMap(offered)[line.key].display)
  {
    var lines := Menu(offered);
    forall line | line in lines
      ensures line.key in SlotMap(offered) && line.caption == SlotMap(offered)[line.key].display
    {
      var i :| 0 <= i < |lines| && lines[i] == line;
    }
  }

  /** In ASK_SLOT, a reply that is not one of the offered keys changes
      nothing and asks again; sending it again gives the same outcome
      (main.py:195-200). */
  lemma UnknownChoiceChangesNothing(store: Store, phone: string, message: string, offered: SlotList,
                                    booked: HttpReply, formatTime: string -> Option<string>)
    requires phone in store && store[phone].stage == AskSlot && store[phone].slots.Some?
    requires Strip(message) !in SlotMap(store[phone].slots.value)
    ensures var r := Step(store, phone, message, offered, booked, formatTime);
      && r.store == store
      && r.answer == Sent(Envelope(SendMessage, InvalidChoice, Pending, map[]))
      && r.booking.None?
      && Step(r.store, phone, message, offered, booked, formatTime) == r
  {
  }

  /** In ASK_SLOT, a valid choice requests the booking of that slot's start
      time; when the booking API refuses it, nothing changes (main.py:202-209). */
  lemma FailedBookingChangesNothing(store: Store, phone: string, message: string, offered: SlotList,
                                    booked: HttpReply, formatTime: string -> Option<string>)
    requires phone in store && store[phone].stage == AskSlot && store[phone].slots.Some?
    requires Strip(message) in SlotMap(store[phone].slots.value)
    requires Rejected(booked)
    ensures var r := Step(store, phone, message, offered, booked, formatTime);
      && r.store == store
      && r.answer == Sent(Envelope(SendMessage, BookingFailed, Pending, map[]))
      && r.booking == Some(BookingRequest(store[phone].name, store[phone].email,
                                          SlotMap(store[phone].slots.value)[Strip(message)].iso))
  {
  }

  /** In ASK_SLOT, a valid choice whose booking call raises (no connection,
      or a body that is not JSON) escapes the handler after the booking was
      requested, and nothing changes (main.py:137-150, 203). */
  lemma BookingCallRaises(store: Store, phone: string, message: string, offered: SlotList,
                          booked: HttpReply, formatTime: string -> Option<string>)
    requires phone in store && store[phone].stage == AskSlot && store[phone].slots.Some?
    requires Strip(message) in SlotMap(store[phone].slots.value)
    requires booked.PostRaised?
    ensures var r := Step(store, phone, message, offered, booked, formatTime);
      && r.store == store
      && r.answer == ServerError
      && r.booking == Some(BookingRequest(store[phone].name, store[phone].email,
                                          SlotMap(store[phone].slots.value)[Strip(message)].iso))
  {
  }

  /** In ASK_SLOT, a valid choice whose booking the API accepts, but whose
      confirmation cannot be read (no hosts, or a start time that cannot be
      parsed), escapes the handler before the session is removed: the
      booking was requested and nothing changes, so a retry sends the same
      request again (main.py:202-228). */
  lemma UnreadableConfirmationRaises(store: Store, phone: string, message: string, offered: SlotList,
                                     booked: HttpReply, formatTime: string -> Option<string>)
    requires phone in store && store[phone].stage == AskSlot && store[phone].slots.Some?
    requires Strip(message) in SlotMap(store[phone].slots.value)
    requires Accepted(booked)
    requires Confirm(booked.body.data.GetOr(EmptyData), formatTime).None?
    ensures var r := Step(store, phone, message, offered, booked, formatTime);
      && r.store == store
      && r.answer == ServerError
      && r.booking == Some(BookingRequest(store[phone].name, store[phone].email,
                                          SlotMap(store[phone].slots.value)[Strip(message)].iso))
      && Step(r.store, phone, message, offered, booked, formatTime) == r
  {
  }

  /** The reply is BOOKED exactly when the session is in ASK_SLOT, the
      stripped message is one of its keys, the booking API accepts the
      booking and its confirmation can be read. Then, and only then, the
      session is removed; every other reply is PENDING (main.py:202-246). */
  lemma BookedExactlyOnSuccess(store: Store, phone: string, message: string, offered: SlotList,
                               booked: HttpReply, formatTime: string -> Option<string>)
    ensures var r := Step(store, phone, message, offered, booked, formatTime);
            var state := Load(store, phone);
      && (r.answer.Sent? && r.answer.reply.status == Booked <==>
            && state.stage == AskSlot
            && state.slots.Some?
            && Strip(message) in SlotMap(state.slots.value)
            && Accepted(booked)
            && Confirm(booked.body.data.GetOr(EmptyData), formatTime).Some?)
      && (r.answer.Sent? && r.answer.reply.status == Booked ==>
            && r.store == store - {phone}
            && r.booking == Some(BookingRequest(state.name, state.email, SlotMap(state.slots.value)[Strip(message)].iso))
            && r.answer.reply.message == Confirmed(state.name, state.email,
                                                   Confirm(booked.body.data.GetOr(EmptyData), formatTime).value))
      && (r.answer.Sent? && r.answer.reply.status != Booked ==> r.answer.reply.status == Pending)
      && (phone in store && phone !in r.store ==> r.answer.Sent? && r.answer.reply.status == Booked)
  {
    var r := Step(store, phone, message, offered, booked, formatTime);
    if phone in store && phone !in r.store {
      assert r.store != store;
    }
  }

  /** A booking is requested exactly when the session is in ASK_SLOT and the
      reply is one of the offered keys, whatever the booking API then answers;
      the request carries the stored name and email and the chosen slot's
      start string (main.py:195-203). */
  lemma BookingRequestedExactly(store: Store, phone: string, message: string, offered: SlotList,
                                booked: HttpReply, formatTime: string -> Option<string>)
    ensures var r := Step(store, phone, message, offered, booked, formatTime);
            var state := Load(store, phone);
      && (r.booking.Some? <==>
            state.stage == AskSlot && state.slots.Some? && Strip(message) in SlotMap(state.slots.value))
      && (r.booking.Some? ==>
            r.booking.value == BookingRequest(state.name, state.email, SlotMap(state.slots.value)[Strip(message)].iso))
  {
  }
}

=== FILE: slots.dfy ===
/** The slot collector `get_available_slots_from_cal` (main.py:50-119): it
    asks the scheduling API for one day at a time, starting today, and keeps
    the first three bookable start times it is given, keyed "1", "2", "3". */
module Slots {
  import opened Base

  /** How many slots the collector keeps (main.py:54). */
  const RequiredSlots: nat := 3
  /** How many consecutive days, starting today, it may ask about (main.py:55). */
  const DaysAheadLimit: nat := 7
  /** The only status code whose body is read (main.py:87). */
  const OkStatus: int := 200

  /** One offered slot: the API's start string, untouched, and its display label. */
  datatype Slot = Slot(iso: string, display: string)

  /** What the slot API gave back for one day. `Raised` stands for a request
      or JSON decoding that raised; `Reply` carries the status code and the
      `start` strings listed under that date, in the API's order (empty when
      the date is absent from the body). An entry with no `start` key raises
      only when the loop reaches it, just as a start string that cannot be
      parsed does, so it is written as a start string the labelling rejects. */
  datatype DayReply =
    | Raised
    | Reply(status: int, starts: seq<string>)

  /** The collected slots, in the order they were collected; entry `i`
      (from 0) is the one keyed by the decimal digit of i + 1. */
  type SlotList = s: seq<Slot> | |s| <= RequiredSlots

  /** The decimal digit of `i`: the keys the collector can produce. */
  function Key(i: nat): (k: string)
    requires 1 <= i <= RequiredSlots
  {
    [('0' as int + i) as char]
  }

  /** `k` is one of the keys "1".."n". */
  predicate IsKey(k: string, n: nat) {
    |k| == 1 && '1' <= k[0] && (k[0] as int) - ('0' as int) <= n
  }

  /** The dictionary the source builds (main.py:108-112), from its ordered entries. */
  function SlotMap(s: SlotList): (m: map<string, Slot>)
    ensures forall k :: k in m <==> IsKey(k, |s|)
    ensures forall i :: 1 <= i <= |s| ==> Key(i) in m && m[Key(i)] == s[i - 1]
  {
    var m := map i | 1 <= i <= |s| :: Key(i) := s[i - 1];
    assert forall k :: IsKey(k, |s|) ==> k == Key((k[0] as int) - ('0' as int));
    m
  }

  /** `slots[i]` carries `isos[i]` unchanged and the label the formatter
      gives it, for every `i`. */
  predicate Labelled(slots: seq<Slot>, isos: seq<string>, labelOf: string -> Option<string>) {
    && |slots| == |isos|
    && forall i :: 0 <= i < |slots| ==> slots[i].iso == isos[i] && labelOf(isos[i]) == Some(slots[i].display)
  }

  /** The inner loop over one day's slots (main.py:96-112): append labelled
      slots in API order until three are held. `labelOf` stands for the
      UTC-to-local conversion and formatting of a start string; `None` is a
      start string it cannot parse, which raises. */
  function TakeDay(acc: SlotList, starts: seq<string>, labelOf: string -> Option<string>): (r: Option<SlotList>)
    ensures r.Some? ==>
              && acc <= r.value
              && Labelled(r.value[|acc|..], starts[..Min(RequiredSlots - |acc|, |starts|)], labelOf)
    ensures r.None? <==> exists i :: 0 <= i < Min(RequiredSlots - |acc|, |starts|) && labelOf(starts[i]).None?
    decreases |starts|
  {
    if |starts| == 0 || |acc| >= RequiredSlots then
      Some(acc)
    else
      match labelOf(starts[0])
      case None => None
      case Some(l) =>
        var r := TakeDay(acc + [Slot(starts[0], l)], starts[1..], labelOf);
        assert r.None? ==> labelOf(starts[0]).Some? by {
          assert labelOf(starts[0]) == Some(l);
        }
        if r.None? then
          var i :| 0 <= i < Min(RequiredSlots - |acc| - 1, |starts| - 1) && labelOf(starts[1..][i]).None?;
          assert labelOf(starts[i + 1]).None?;
          r
        else
          assert r.value[|acc|..] == [Slot(starts[0], l)] + r.value[|acc| + 1..];
          assert starts[..Min(RequiredSlots - |acc|, |starts|)]
              == [starts[0]] + starts[1..][..Min(RequiredSlots - |acc| - 1, |starts| - 1)];
          r
  }

  /** The outcome of the day-by-day sweep: the collected slots (`None` once
      something raised) and the dates queried, in order. */
  datatype Sweep = Sweep(slots: Option<SlotList>, queried: seq<int>)

  /** The `n` consecutive dates from `first` on. */
  function Days(first: int, n: nat): (ds: seq<int>)
    ensures |ds| == n
  {
    if n == 0 then [] else Days(first, n - 1) + [first + n - 1]
  }

  lemma {:induction false} DaysCons(first: int, n: nat)
    ensures [first] + Days(first + 1, n) == Days(first, n + 1)
  {
    if n > 0 {
      DaysCons(first, n - 1);
      assert [first] + Days(first + 1, n) == [first] + Days(first + 1, n - 1) + [first + n];
    }
  }

  lemma {:induction false} DaysIndex(first: int, n: nat)
    ensures forall j :: 0 <= j < n ==> Days(first, n)[j] == first + j
  {
    if n > 0 {
      DaysIndex(first, n - 1);
    }
  }

  /** What one day's reply does to the slots held (main.py:87-112): a
      status other than 200 or an empty list adds nothing; otherwise the
      list is taken. `None` when something raised. */
  function DayStep(acc: SlotList, reply: DayReply, labelOf: string -> Option<string>): (r: Option<SlotList>) {
    match reply
    case Raised => None
    case Reply(status, starts) =>
      if status != OkStatus || |starts| == 0 then Some(acc) else TakeDay(acc, starts, labelOf)
  }

  /** The outer loop (main.py:63-112) from day `offset` on, holding `acc`.
      Dates are day numbers; `today + offset` is the date asked about. */
  function SweepFrom(today: int, offset: nat, acc: SlotList, fetch: int -> DayReply,
                     labelOf: string -> Option<string>): (r: Sweep)
    requires offset <= DaysAheadLimit
    ensures offset + |r.queried| <= DaysAheadLimit
    ensures r.queried == Days(today + offset, |r.queried|)
    ensures r.slots.Some? ==> acc <= r.slots.value
    decreases DaysAheadLimit - offset
  {
    if offset == DaysAheadLimit || |acc| >= RequiredSlots then
      Sweep(Some(acc), [])
    else
      var day := today + offset;
      match DayStep(acc, fetch(day), labelOf)
      case None => Sweep(None, [day])
      case Some(acc') =>
        var rest := SweepFrom(today, offset + 1, acc', fetch, labelOf);
        DaysCons(day, |rest.queried|);
        Sweep(rest.slots, [day] + rest.queried)
  }

  /** The whole sweep, starting today with nothing collected. */
  function Collect(today: int, fetch: int -> DayReply, labelOf: string -> Option<string>): (r: Sweep) {
    SweepFrom(today, 0, [], fetch, labelOf)
  }

  // ---------------------------------------------------------------------
  // A reference description of the result, independent of the loops.
  // ---------------------------------------------------------------------

  /** The start strings a day contributes: its list when the status is 200,
      nothing otherwise (main.py:87-94). */
  function DayStarts(reply: DayReply): (starts: seq<string>) {
    if reply.Reply? && reply.status == OkStatus then reply.starts else []
  }

  /** Every start string offered on the first `k` days, day by day in API order. */
  function Offered(today: int, fetch: int -> DayReply, k: nat): (isos: seq<string>) {
    if k == 0 then [] else Offered(today, fetch, k - 1) + DayStarts(fetch(today + k - 1))
  }

  /** The first (at most three) start strings offered over the whole window. */
  function FirstOffered(today: int, fetch: int -> DayReply): (isos: seq<string>)
    ensures |isos| <= RequiredSlots
  {
    var all := Offered(today, fetch, DaysAheadLimit);
    all[..Min(RequiredSlots, |all|)]
  }

  lemma {:induction false} OfferedGrows(today: int, fetch: int -> DayReply, j: nat, k: nat)
    requires j <= k
    ensures Offered(today, fetch, j) <= Offered(today, fetch, k)
    decreases k
  {
    if j < k {
      OfferedGrows(today, fetch, j, k - 1);
    }
  }

  /** What the sweep from day `offset` may assume about `acc`: it holds the
      first (at most three) start strings offered before that day, labelled. */
  predicate Holds(today: int, fetch: int -> DayReply, labelOf: string -> Option<string>, offset: nat, acc: SlotList) {
    var before := Offered(today, fetch, offset);
    |acc| == Min(RequiredSlots, |before|) && Labelled(acc, before[..|acc|], labelOf)
  }

  /** Some queried date got a reply that raised. */
  predicate SomeDayRaised(queried: seq<int>, fetch: int -> DayReply) {
    exists j :: 0 <= j < |queried| && fetch(queried[j]).Raised?
  }

  /** Some start string among the first three offered cannot be labelled. */
  predicate SomeLabelFails(today: int, fetch: int -> DayReply, labelOf: string -> Option<string>) {
    var first := FirstOffered(today, fetch);
    exists i :: 0 <= i < |first| && labelOf(first[i]).None?
  }

  /** What the sweep from day `offset` is promised to produce: the first
      three offered slots, labelled; a query only while fewer than three are
      held; a stop only at the window's end or with three held; and a
      failure exactly when a queried day raised or one of the first three
      start strings cannot be labelled. */
  predicate MeetsReference(today: int, offset: nat, r: Sweep, fetch: int -> DayReply, labelOf: string -> Option<string>) {
    && (r.slots.Some? ==> Labelled(r.slots.value, FirstOffered(today, fetch), labelOf))
    && (forall j :: offset <= j < offset + |r.queried| ==> |Offered(today, fetch, j)| < RequiredSlots)
    && (r.slots.Some? ==>
          offset + |r.queried| == DaysAheadLimit || |Offered(today, fetch, offset + |r.queried|)| >= RequiredSlots)
    && (r.slots.None? <==> SomeDayRaised(r.queried, fetch) || SomeLabelFails(today, fetch, labelOf))
  }

  lemma RaisedShift(day: int, queried: seq<int>, fetch: int -> DayReply)
    ensures SomeDayRaised([day] + queried, fetch) <==> fetch(day).Raised? || SomeDayRaised(queried, fetch)
  {
    var q := [day] + queried;
    if SomeDayRaised(q, fetch) && !fetch(day).Raised? {
      var j :| 0 <= j < |q| && fetch(q[j]).Raised?;
      assert j > 0 && queried[j - 1] == q[j];
    }
    if SomeDayRaised(queried, fetch) {
      var j :| 0 <= j < |queried| && fetch(queried[j]).Raised?;
      assert q[j + 1] == queried[j];
    }
    if fetch(day).Raised? {
      assert q[0] == day;
    }
  }

  /** The sweep stops with what it holds once the window ends or three are held. */
  lemma SweepStopMeetsReference(today: int, offset: nat, acc: SlotList,
                                fetch: int -> DayReply, labelOf: string -> Option<string>)
    requires offset <= DaysAheadLimit
    requires Holds(today, fetch, labelOf, offset, acc)
    requires offset == DaysAheadLimit || |acc| >= RequiredSlots
    ensures MeetsReference(today, offset, Sweep(Some(acc), []), fetch, labelOf)
  {
    var before := Offered(today, fetch, offset);
    var first := FirstOffered(today, fetch);
    OfferedGrows(today, fetch, offset, DaysAheadLimit);
    assert |first| == |acc|;
    assert first == before[..|acc|];
    assert !SomeLabelFails(today, fetch, labelOf);
  }

  /** Querying one more day that did not raise, then sweeping on, keeps the promise. */
  lemma SweepDayMeetsReference(today: int, offset: nat, rest: Sweep,
                               fetch: int -> DayReply, labelOf: string -> Option<string>)
    requires offset < DaysAheadLimit
    requires |Offered(today, fetch, offset)| < RequiredSlots
    requires !fetch(today + offset).Raised?
    requires MeetsReference(today, offset + 1, rest, fetch, labelOf)
    ensures MeetsReference(today, offset, Sweep(rest.slots, [today + offset] + rest.queried), fetch, labelOf)
  {
    RaisedShift(today + offset, rest.queried, fetch);
  }

  /** The sweep from day `offset` meets the reference description. */
  lemma {:induction false} SweepFromMeetsReference(today: int, offset: nat, acc: SlotList,
                                                   fetch: int -> DayReply, labelOf: string -> Option<string>)
    requires offset <= DaysAheadLimit
    requires Holds(today, fetch, labelOf, offset, acc)
    ensures MeetsReference(today, offset, SweepFrom(today, offset, acc, fetch, labelOf), fetch, labelOf)
    decreases DaysAheadLimit - offset
  {
    if offset == DaysAheadLimit || |acc| >= RequiredSlots {
      SweepStopMeetsReference(today, offset, acc, fetch, labelOf);
    } else {
      var day := today + offset;
      match fetch(day)
      case Raised =>
        SweepRaisedOrFailedMeetsReference(today, offset, acc, fetch, labelOf);
        assert SweepFrom(today, offset, acc, fetch, labelOf) == Sweep(None, [day]);
      case Reply(status, starts) =>
        if status != OkStatus || |starts| == 0 {
          SkipDayHolds(today, offset, acc, fetch, labelOf);
          SweepFromMeetsReference(today, offset + 1, acc, fetch, labelOf);
          var rest := SweepFrom(today, offset + 1, acc, fetch, labelOf);
          SweepDayMeetsReference(today, offset, rest, fetch, labelOf);
          assert SweepFrom(today, offset, acc, fetch, labelOf) == Sweep(rest.slots, [day] + rest.queried);
        } else {
          match TakeDay(acc, starts, labelOf)
          case None =>
            TakeDayFailure(today, offset, acc, fetch, labelOf);
            SweepRaisedOrFailedMeetsReference(today, offset, acc, fetch, labelOf);
            assert SweepFrom(today, offset, acc, fetch, labelOf) == Sweep(None, [day]);
          case Some(acc') =>
            TakeDayHolds(today, offset, acc, fetch, labelOf);
            SweepFromMeetsReference(today, offset + 1, acc', fetch, labelOf);
            var rest := SweepFrom(today, offset + 1, acc', fetch, labelOf);
            SweepDayMeetsReference(today, offset, rest, fetch, labelOf);
            assert SweepFrom(today, offset, acc, fetch, labelOf) == Sweep(rest.slots, [day] + rest.queried);
      }
    }
  }

  /** A queried day that raised, or a label that failed, ends the sweep with nothing. */
  lemma SweepRaisedOrFailedMeetsReference(today: int, offset: nat, acc: SlotList,
                                          fetch: int -> DayReply, labelOf: string -> Option<string>)
    requires offset < DaysAheadLimit
    requires Holds(today, fetch, labelOf, offset, acc) && |acc| < RequiredSlots
    requires fetch(today + offset).Raised? || SomeLabelFails(today, fetch, labelOf)
    ensures MeetsReference(today, offset, Sweep(None, [today + offset]), fetch, labelOf)
  {
    var q := [today + offset];
    if fetch(today + offset).Raised? {
      assert fetch(q[0]).Raised?;
      assert SomeDayRaised(q, fetch);
    }
  }

  /** A day with a status other than 200, or with no slots, adds nothing. */
  lemma SkipDayHolds(today: int, offset: nat, acc: SlotList,
                     fetch: int -> DayReply, labelOf: string -> Option<string>)
    requires offset < DaysAheadLimit
    requires Holds(today, fetch, labelOf, offset, acc)
    requires fetch(today + offset).Reply?
    requires fetch(today + offset).status != OkStatus || |fetch(today + offset).starts| == 0
    ensures Holds(today, fetch, labelOf, offset + 1, acc)
  {
    assert Offered(today, fetch, offset + 1) == Offered(today, fetch, offset) + [];
  }

  /** Among the first three, what is offered by day `k` is what is offered overall. */
  lemma FirstOfferedAgrees(today: int, fetch: int -> DayReply, k: nat, i: nat)
    requires k <= DaysAheadLimit
    requires i < RequiredSlots && i < |Offered(today, fetch, k)|
    ensures i < |FirstOffered(today, fetch)|
    ensures FirstOffered(today, fetch)[i] == Offered(today, fetch, k)[i]
  {
    OfferedGrows(today, fetch, k, DaysAheadLimit);
  }

  /** A day answered with status 200 offers its whole list after what came before. */
  lemma OfferedNext(today: int, fetch: int -> DayReply, offset: nat)
    requires fetch(today + offset).Reply? && fetch(today + offset).status == OkStatus
    ensures Offered(today, fetch, offset + 1) == Offered(today, fetch, offset) + fetch(today + offset).starts
  {
  }

  /** One of the start strings `after` adds to `before`, among the first
      three, cannot be labelled. */
  predicate AddedLabelFails(before: seq<string>, after: seq<string>, labelOf: string -> Option<string>) {
    exists i :: |before| <= i < Min(RequiredSlots, |after|) && labelOf(after[i]).None?
  }

  /** The day at `offset` breaks the sweep: its reply raised, or one of the
      start strings it adds to the first three offered cannot be labelled. */
  predicate DayFails(today: int, fetch: int -> DayReply, labelOf: string -> Option<string>, offset: nat) {
    || fetch(today + offset).Raised?
    || AddedLabelFails(Offered(today, fetch, offset), Offered(today, fetch, offset + 1), labelOf)
  }

  /** Holding the start strings offered before a day answered with 200,
      taking that day's list fails exactly when one of the start strings it
      adds to the first three offered cannot be labelled. */
  lemma TakeDayFailsOn(today: int, offset: nat, acc: SlotList,
                       fetch: int -> DayReply, labelOf: string -> Option<string>)
    requires |acc| == |Offered(today, fetch, offset)| < RequiredSlots
    requires fetch(today + offset).Reply? && fetch(today + offset).status == OkStatus
    ensures TakeDay(acc, fetch(today + offset).starts, labelOf).None? <==>
              AddedLabelFails(Offered(today, fetch, offset), Offered(today, fetch, offset + 1), labelOf)
  {
    var starts := fetch(today + offset).starts;
    var next := Offered(today, fetch, offset + 1);
    OfferedNext(today, fetch, offset);
    assert Min(RequiredSlots, |next|) == |acc| + Min(RequiredSlots - |acc|, |starts|);
    if TakeDay(acc, starts, labelOf).None? {
      var i :| 0 <= i < Min(RequiredSlots - |acc|, |starts|) && labelOf(starts[i]).None?;
      assert next[|acc| + i] == starts[i];
    }
    if AddedLabelFails(Offered(today, fetch, offset), next, labelOf) {
      var k :| |acc| <= k < Min(RequiredSlots, |next|) && labelOf(next[k]).None?;
      assert starts[k - |acc|] == next[k];
    }
  }

  /** Holding the start strings offered before a day, that day's step fails
      exactly when the day breaks the sweep. */
  lemma DayStepFails(today: int, offset: nat, acc: SlotList,
                     fetch: int -> DayReply, labelOf: string -> Option<string>)
    requires |acc| == |Offered(today, fetch, offset)| < RequiredSlots
    ensures DayStep(acc, fetch(today + offset), labelOf).None? <==> DayFails(today, fetch, labelOf, offset)
  {
    var reply := fetch(today + offset);
    if reply.Reply? && reply.status == OkStatus && |reply.starts| > 0 {
      TakeDayFailsOn(today, offset, acc, fetch, labelOf);
    } else {
      assert Offered(today, fetch, offset + 1) == Offered(today, fetch, offset) + DayStarts(reply);
      assert Offered(today, fetch, offset + 1) == Offered(today, fetch, offset);
    }
  }

  /** A start string that cannot be labelled while fewer than three are
      held is one of the first three offered. */
  lemma TakeDayFailure(today: int, offset: nat, acc: SlotList,
                       fetch: int -> DayReply, labelOf: string -> Option<string>)
    requires offset < DaysAheadLimit
    requires |acc| == |Offered(today, fetch, offset)| < RequiredSlots
    requires fetch(today + offset).Reply? && fetch(today + offset).status == OkStatus
    requires TakeDay(acc, fetch(today + offset).starts, labelOf).None?
    ensures SomeLabelFails(today, fetch, labelOf)
  {
    TakeDayFailsOn(today, offset, acc, fetch, labelOf);
    AddedFailureIsFirst(today, fetch, labelOf, offset + 1, Offered(today, fetch, offset));
  }

  /** A start string that cannot be labelled among the first three offered
      by day `k` is one of the first three offered overall. */
  lemma AddedFailureIsFirst(today: int, fetch: int -> DayReply, labelOf: string -> Option<string>,
                            k: nat, before: seq<string>)
    requires k <= DaysAheadLimit
    requires AddedLabelFails(before, Offered(today, fetch, k), labelOf)
    ensures SomeLabelFails(today, fetch, labelOf)
  {
    var next := Offered(today, fetch, k);
    var i :| |before| <= i < Min(RequiredSlots, |next|) && labelOf(next[i]).None?;
    FirstOfferedAgrees(today, fetch, k, i);
    assert FirstOffered(today, fetch)[i] == next[i];
  }

  lemma LabelledConcat(a: seq<Slot>, b: seq<Slot>, xs: seq<string>, ys: seq<string>, labelOf: string -> Option<string>)
    requires Labelled(a, xs, labelOf) && Labelled(b, ys, labelOf)
    ensures Labelled(a + b, xs + ys, labelOf)
  {
    forall i | 0 <= i < |a + b|
      ensures (a + b)[i].iso == (xs + ys)[i] && labelOf((xs + ys)[i]) == Some((a + b)[i].display)
    {
      if i >= |a| {
        assert (a + b)[i] == b[i - |a|] && (xs + ys)[i] == ys[i - |a|];
      }
    }
  }

  /** Appending a day's labelled first start strings to the labelled
      start strings offered before it gives the labelled first start strings
      of both together. */
  lemma LabelledExtend(before: seq<string>, starts: seq<string>, acc: SlotList, acc': SlotList,
                       labelOf: string -> Option<string>)
    requires |acc| == |before| < RequiredSlots
    requires Labelled(acc, before, labelOf)
    requires acc <= acc'
    requires Labelled(acc'[|acc|..], starts[..Min(RequiredSlots - |acc|, |starts|)], labelOf)
    ensures |acc'| == Min(RequiredSlots, |before + starts|)
    ensures Labelled(acc', (before + starts)[..|acc'|], labelOf)
  {
    var taken := starts[..Min(RequiredSlots - |acc|, |starts|)];
    assert acc' == acc + acc'[|acc|..];
    assert (before + starts)[..|acc'|] == before + taken;
    LabelledConcat(acc, acc'[|acc|..], before, taken, labelOf);
  }

  /** Taking one day's list while fewer than three are held keeps `Holds`. */
  lemma TakeDayHolds(today: int, offset: nat, acc: SlotList,
                     fetch: int -> DayReply, labelOf: string -> Option<string>)
    requires offset < DaysAheadLimit
    requires Holds(today, fetch, labelOf, offset, acc) && |acc| < RequiredSlots
    requires fetch(today + offset).Reply? && fetch(today + offset).status == OkStatus
    requires TakeDay(acc, fetch(today + offset).starts, labelOf).Some?
    ensures Holds(today, fetch, labelOf, offset + 1, TakeDay(acc, fetch(today + offset).starts, labelOf).value)
  {
    var starts := fetch(today + offset).starts;
    var before := Offered(today, fetch, offset);
    assert |before| == |acc|;
    assert before[..|acc|] == before;
    OfferedNext(today, fetch, offset);
    LabelledExtend(before, starts, acc, TakeDay(acc, starts, labelOf).value, labelOf);
  }

  /** The sweep from day `offset` stops at the first day that breaks it: a
      queried day breaks the sweep exactly when it is the last one queried
      and the sweep failed, and a failed sweep queried at least one day. */
  predicate StopsAtFailure(today: int, offset: nat, r: Sweep, fetch: int -> DayReply, labelOf: string -> Option<string>) {
    && (r.slots.None? ==> |r.queried| > 0)
    && forall j :: offset <= j < offset + |r.queried| ==>
         (DayFails(today, fetch, labelOf, j) <==> r.slots.None? && j == offset + |r.queried| - 1)
  }

  /** The sweep from day `offset`, holding the first slots offered before
      it, stops at the first day that breaks it and nowhere else. */
  lemma {:induction false} SweepFromStopsAtFailure(today: int, offset: nat, acc: SlotList,
                                                   fetch: int -> DayReply, labelOf: string -> Option<string>)
    requires offset <= DaysAheadLimit
    requires Holds(today, fetch, labelOf, offset, acc)
    ensures StopsAtFailure(today, offset, SweepFrom(today, offset, acc, fetch, labelOf), fetch, labelOf)
    decreases DaysAheadLimit - offset
  {
    if offset < DaysAheadLimit && |acc| < RequiredSlots {
      var day := today + offset;
      assert |acc| == |Offered(today, fetch, offset)|;
      match fetch(day)
      case Raised =>
        FailedDayStops(today, offset, acc, fetch, labelOf);
        assert SweepFrom(today, offset, acc, fetch, labelOf) == Sweep(None, [day]);
      case Reply(status, starts) =>
        if status != OkStatus || |starts| == 0 {
          SkipDayHolds(today, offset, acc, fetch, labelOf);
          SweepFromStopsAtFailure(today, offset + 1, acc, fetch, labelOf);
          var rest := SweepFrom(today, offset + 1, acc, fetch, labelOf);
          StopsAtFailureShift(today, offset, acc, rest, fetch, labelOf);
          assert SweepFrom(today, offset, acc, fetch, labelOf) == Sweep(rest.slots, [day] + rest.queried);
        } else {
          match TakeDay(acc, starts, labelOf)
          case None =>
            FailedDayStops(today, offset, acc, fetch, labelOf);
            assert SweepFrom(today, offset, acc, fetch, labelOf) == Sweep(None, [day]);
          case Some(acc') =>
            TakeDayHolds(today, offset, acc, fetch, labelOf);
            SweepFromStopsAtFailure(today, offset + 1, acc', fetch, labelOf);
            var rest := SweepFrom(today, offset + 1, acc', fetch, labelOf);
            StopsAtFailureShift(today, offset, acc, rest, fetch, labelOf);
            assert SweepFrom(today, offset, acc, fetch, labelOf) == Sweep(rest.slots, [day] + rest.queried);
        }
    }
  }

  /** A day whose step fails ends the sweep right there, and it breaks it. */
  lemma FailedDayStops(today: int, offset: nat, acc: SlotList,
                       fetch: int -> DayReply, labelOf: string -> Option<string>)
    requires |acc| == |Offered(today, fetch, offset)| < RequiredSlots
    requires DayStep(acc, fetch(today + offset), labelOf).None?
    ensures StopsAtFailure(today, offset, Sweep(None, [today + offset]), fetch, labelOf)
  {
    DayStepFails(today, offset, acc, fetch, labelOf);
  }

  /** A day whose step succeeds does not break the sweep, so querying it
      before a sweep that stops at its first failure keeps that property. */
  lemma StopsAtFailureShift(today: int, offset: nat, acc: SlotList, rest: Sweep,
                            fetch: int -> DayReply, labelOf: string -> Option<string>)
    requires |acc| == |Offered(today, fetch, offset)| < RequiredSlots
    requires DayStep(acc, fetch(today + offset), labelOf).Some?
    requires StopsAtFailure(today, offset + 1, rest, fetch, labelOf)
    ensures StopsAtFailure(today, offset, Sweep(rest.slots, [today + offset] + rest.queried), fetch, labelOf)
  {
    DayStepFails(today, offset, acc, fetch, labelOf);
    PassedDayShift(today, offset, rest, fetch, labelOf);
  }

  /** Index bookkeeping for `StopsAtFailureShift`: a day that does not break
      the sweep can be put in front of one that stops at its first failure. */
  lemma PassedDayShift(today: int, offset: nat, rest: Sweep,
                       fetch: int -> DayReply, labelOf: string -> Option<string>)
    requires !DayFails(today, fetch, labelOf, offset)
    requires StopsAtFailure(today, offset + 1, rest, fetch, labelOf)
    ensures StopsAtFailure(today, offset, Sweep(rest.slots, [today + offset] + rest.queried), fetch, labelOf)
  {
    var n := 1 + |rest.queried|;
    forall j | offset <= j < offset + n
      ensures DayFails(today, fetch, labelOf, j) <==> rest.slots.None? && j == offset + n - 1
    {
      if j > offset {
        assert offset + 1 <= j < offset + 1 + |rest.queried|;
      }
    }
  }

  /** The whole sweep stops at the first day that breaks it: a queried day
      breaks the sweep exactly when it is the last one queried and the sweep
      failed, so no day before the last one queried raised. */
  lemma CollectStopsAtFailure(today: int, fetch: int -> DayReply, labelOf: string -> Option<string>)
    ensures var r := Collect(today, fetch, labelOf);
      && (r.slots.None? ==> |r.queried| > 0)
      && (forall j :: 0 <= j < |r.queried| ==>
            (DayFails(today, fetch, labelOf, j) <==> r.slots.None? && j == |r.queried| - 1))
      && (forall j :: 0 <= j < |r.queried| - 1 ==> !fetch(r.queried[j]).Raised?)
  {
    var r := Collect(today, fetch, labelOf);
    assert Holds(today, fetch, labelOf, 0, []);
    SweepFromStopsAtFailure(today, 0, [], fetch, labelOf);
    DaysIndex(today, |r.queried|);
    NoRaiseBeforeLast(today, r, fetch, labelOf);
  }

  /** In a sweep from today that stops at its first failure, no day before
      the last one queried raised. */
  lemma NoRaiseBeforeLast(today: int, r: Sweep, fetch: int -> DayReply, labelOf: string -> Option<string>)
    requires StopsAtFailure(today, 0, r, fetch, labelOf)
    requires forall j :: 0 <= j < |r.queried| ==> r.queried[j] == today + j
    ensures forall j :: 0 <= j < |r.queried| - 1 ==> !fetch(r.queried[j]).Raised?
  {
    forall j | 0 <= j < |r.queried| - 1
      ensures !fetch(r.queried[j]).Raised?
    {
      assert !DayFails(today, fetch, labelOf, j);
    }
  }

  // ---------------------------------------------------------------------
  // The collector as the caller sees it.
  // ---------------------------------------------------------------------

  /** The whole sweep meets the reference description: the dates queried are
      today, today + 1, ... (at most seven of them), each queried only while
      fewer than three slots are held, and the sweep stops early only once
      three are held; the slots are the first three offered, each with its
      start string unchanged; and it fails exactly when a queried day raised
      or one of those three start strings cannot be labelled. */
  lemma CollectMeetsReference(today: int, fetch: int -> DayReply, labelOf: string -> Option<string>)
    ensures var r := Collect(today, fetch, labelOf);
      && |r.queried| <= DaysAheadLimit
      && (forall j :: 0 <= j < |r.queried| ==> r.queried[j] == today + j)
      && (forall j :: 0 <= j < |r.queried| ==> |Offered(today, fetch, j)| < RequiredSlots)
      && (r.slots.Some? ==>
            |r.queried| == DaysAheadLimit || |Offered(today, fetch, |r.queried|)| >= RequiredSlots)
      && (r.slots.Some? ==> Labelled(r.slots.value, FirstOffered(today, fetch), labelOf))
      && (r.slots.None? <==> SomeDayRaised(r.queried, fetch) || SomeLabelFails(today, fetch, labelOf))
      && (r.slots.None? ==> |r.queried| > 0)
      && (forall j :: 0 <= j < |r.queried| ==>
            (DayFails(today, fetch, labelOf, j) <==> r.slots.None? && j == |r.queried| - 1))
      && (forall j :: 0 <= j < |r.queried| - 1 ==> !fetch(r.queried[j]).Raised?)
  {
    assert Holds(today, fetch, labelOf, 0, []);
    SweepFromMeetsReference(today, 0, [], fetch, labelOf);
    CollectStopsAtFailure(today, fetch, labelOf);
    DaysIndex(today, |Collect(today, fetch, labelOf).queried|);
  }

  /** The slot collector as its caller sees it: the slots collected over the seven
      days, or none at all when anything raised on the way, partial results
      included (main.py:117-119). */
  function GetAvailableSlots(today: int, fetch: int -> DayReply, labelOf: string -> Option<string>): (r: SlotList)
    ensures r == [] || Labelled(r, FirstOffered(today, fetch), labelOf)
    ensures r == [] <==>
              || SomeDayRaised(Collect(today, fetch, labelOf).queried, fetch)
              || SomeLabelFails(today, fetch, labelOf)
              || Offered(today, fetch, DaysAheadLimit) == []
  {
    CollectMeetsReference(today, fetch, labelOf);
    Collect(today, fetch, labelOf).slots.GetOr([])
  }

  /** Only today and the six days after it can influence the collector:
      replies for any other date are never looked at. */
  lemma {:induction false} SweepReadsOnlyWindow(today: int, offset: nat, acc: SlotList,
                                                fetch: int -> DayReply, fetch': int -> DayReply,
                                                labelOf: string -> Option<string>)
    requires offset <= DaysAheadLimit
    requires forall d :: today <= d < today + DaysAheadLimit ==> fetch(d) == fetch'(d)
    ensures SweepFrom(today, offset, acc, fetch, labelOf) == SweepFrom(today, offset, acc, fetch', labelOf)
    decreases DaysAheadLimit - offset
  {
    if offset < DaysAheadLimit && |acc| < RequiredSlots {
      assert fetch(today + offset) == fetch'(today + offset);
      match fetch(today + offset)
      case Raised =>
      case Reply(status, starts) =>
        SweepReadsOnlyWindow(today, offset + 1, acc, fetch, fetch', labelOf);
        match TakeDay(acc, starts, labelOf)
        case None =>
        case Some(acc') =>
          SweepReadsOnlyWindow(today, offset + 1, acc', fetch, fetch', labelOf);
    }
  }

  /** The inner loop over one day's slots (main.py:96-112), step by step;
      `None` when a start string cannot be labelled. */
  method TakeDaySlots(acc: SlotList, daySlots: seq<string>, labelOf: string -> Option<string>)
    returns (r: Option<SlotList>)
    ensures r == TakeDay(acc, daySlots, labelOf)
  {
    var collected: SlotList := acc;
    var k := 0;
    while k < |daySlots| && |collected| < RequiredSlots
      invariant k <= |daySlots|
      invariant TakeDay(acc, daySlots, labelOf) == TakeDay(collected, daySlots[k..], labelOf)
      decreases |daySlots| - k
    {
      var iso := daySlots[k];
      assert daySlots[k..][1..] == daySlots[k + 1..];
      match labelOf(iso)
      case None =>
        return None;
      case Some(l) =>
        collected := collected + [Slot(iso, l)];
      k := k + 1;
    }
    r := Some(collected);
  }

  /** The body of the outer loop for one day (main.py:87-112): it fails
      exactly when the reply raised or one of the start strings it reaches
      cannot be labelled; otherwise it appends the day's first start strings
      (none unless the status is 200), labelled, until three are held. */
  method VisitDay(acc: SlotList, res: DayReply, labelOf: string -> Option<string>) returns (next: Option<SlotList>)
    ensures next.None? <==>
              || res.Raised?
              || exists i :: 0 <= i < Min(RequiredSlots - |acc|, |DayStarts(res)|) && labelOf(DayStarts(res)[i]).None?
    ensures next.Some? ==>
              && acc <= next.value
              && Labelled(next.value[|acc|..], DayStarts(res)[..Min(RequiredSlots - |acc|, |DayStarts(res)|)], labelOf)
    ensures next == DayStep(acc, res, labelOf)
  {
    if res.Raised? {
      next := None;
    } else if res.status != OkStatus || |res.starts| == 0 {
      assert Min(RequiredSlots - |acc|, |DayStarts(res)|) <= 0;
      next := Some(acc);
    } else {
      assert DayStarts(res) == res.starts;
      next := TakeDaySlots(acc, res.starts, labelOf);
    }
  }

  /** The source's outer loop over day offsets (main.py:63-115), step by
      step: it returns what `GetAvailableSlots` describes. */
  method CollectSlots(today: int, fetch: int -> DayReply, labelOf: string -> Option<string>)
    returns (slots: SlotList)
    ensures slots == Collect(today, fetch, labelOf).slots.GetOr([])
  {
    ghost var goal := Collect(today, fetch, labelOf);
    var collected: SlotList := [];
    var dayOffset: nat := 0;
    while dayOffset < DaysAheadLimit && |collected| < RequiredSlots
      invariant dayOffset <= DaysAheadLimit
      invariant goal.slots == SweepFrom(today, dayOffset, collected, fetch, labelOf).slots
      decreases DaysAheadLimit - dayOffset
    {
      var next := VisitDay(collected, fetch(today + dayOffset), labelOf);
      if next.None? {
        return [];
      }
      collected := next.value;
      dayOffset := dayOffset + 1;
    }
    slots := collected;
  }
}

=== FILE: text.dfy ===
/** Python's `str.strip()` with no argument, as applied to every inbound message (main.py:156). */
module Text {

  /** The characters Python's `str.isspace` accepts. */
  predicate IsSpace(c: char) {
    || ('\t' <= c <= '\r')
    || ('\U{1C}' <= c <= ' ')
    || c == '\U{85}'
    || c == '\U{A0}'
    || c == '\U{1680}'
    || ('\U{2000}' <= c <= '\U{200A}')
    || c == '\U{2028}'
    || c == '\U{2029}'
    || c == '\U{202F}'
    || c == '\U{205F}'
    || c == '\U{3000}'
  }

  predicate AllSpace(s: string) {
    forall i :: 0 <= i < |s| ==> IsSpace(s[i])
  }

  /** Neither end of `s` is white space. */
  predicate Trimmed(s: string) {
    |s| == 0 || (!IsSpace(s[0]) && !IsSpace(s[|s| - 1]))
  }

  /** The length of the longest all-space prefix of `s`. */
  function LeadingSpaces(s: string): (n: nat)
    ensures n <= |s|
    ensures AllSpace(s[..n])
    ensures n == |s| || !IsSpace(s[n])
  {
    if |s| > 0 && IsSpace(s[0]) then 1 + LeadingSpaces(s[1..]) else 0
  }

  /** The length of the longest all-space suffix of `s`. */
  function TrailingSpaces(s: string): (n: nat)
    ensures n <= |s|
    ensures AllSpace(s[|s| - n..])
    ensures n == |s| || !IsSpace(s[|s| - n - 1])
  {
    if |s| > 0 && IsSpace(s[|s| - 1]) then 1 + TrailingSpaces(s[..|s| - 1]) else 0
  }

  /** `r` is `s` with an all-space prefix of length `a` and an all-space
      suffix removed. */
  predicate StripsTo(s: string, a: nat, r: string) {
    && a + |r| <= |s|
    && r == s[a..a + |r|]
    && AllSpace(s[..a])
    && AllSpace(s[a + |r|..])
  }

  /** `s` without its leading and trailing white space. */
  function Strip(s: string): (r: string)
    ensures Trimmed(r)
    ensures StripsTo(s, LeadingSpaces(s), r)
  {
    var a := LeadingSpaces(s);
    var rest := s[a..];
    var t := TrailingSpaces(rest);
    var r := rest[..|rest| - t];
    assert r == s[a..a + |r|];
    assert s[a + |r|..] == rest[|rest| - t..];
    assert |r| > 0 ==> r[0] == s[a] && r[|r| - 1] == rest[|rest| - t - 1];
    r
  }

  /** Leading white space ends where the first non-space character is. */
  lemma {:induction false} LeadingSpacesOf(lead: string, rest: string)
    requires AllSpace(lead)
    requires |rest| == 0 || !IsSpace(rest[0])
    ensures LeadingSpaces(lead + rest) == |lead|
  {
    if |lead| > 0 {
      assert (lead + rest)[1..] == lead[1..] + rest;
      LeadingSpacesOf(lead[1..], rest);
    } else {
      assert lead + rest == rest;
    }
  }

  /** Trailing white space starts after the last non-space character. */
  lemma {:induction false} TrailingSpacesOf(body: string, trail: string)
    requires AllSpace(trail)
    requires |body| == 0 || !IsSpace(body[|body| - 1])
    ensures TrailingSpaces(body + trail) == |trail|
  {
    if |trail| > 0 {
      var s := body + trail;
      assert s[..|s| - 1] == body + trail[..|trail| - 1];
      TrailingSpacesOf(body, trail[..|trail| - 1]);
    } else {
      assert body + trail == body;
    }
  }

  /** Stripping is characterised by its result: whenever `s` is `r` with
      white space around it and `r` has none at its ends, `Strip(s)` is `r`. */
  lemma StripCharacterised(lead: string, r: string, trail: string)
    requires AllSpace(lead) && AllSpace(trail) && Trimmed(r)
    ensures Strip(lead + r + trail) == r
  {
    var s := lead + r + trail;
    if |r| == 0 {
      assert s == lead + trail + "";
      assert AllSpace(lead + trail);
      LeadingSpacesOf(lead + trail, "");
      assert s[|s|..] == "";
      TrailingSpacesOf("", "");
    } else {
      assert s == lead + (r + trail);
      LeadingSpacesOf(lead, r + trail);
      assert s[|lead|..] == r + trail;
      TrailingSpacesOf(r, trail);
    }
  }

  /** Stripping twice is stripping once. */
  lemma StripIdempotent(s: string)
    ensures Strip(Strip(s)) == Strip(s)
  {
    StripCharacterised("", Strip(s), "");
    assert "" + Strip(s) + "" == Strip(s);
  }
}
